=== FILE: README.md ===
# Markups control-point list, modelled in Dafny

This project models the control-point list behind 3D Slicer's `vtkMRMLMarkupsNode`.
A markups node holds an ordered list of control points. Each point has a
position, a 3×3 orientation, a unique ID, a label, a description, an
associated node ID, and selected, locked and visibility flags. Around the
list the node keeps:

- a list-level `Locked` flag;
- the `MarkupLabelFormat` string;
- the `LastUsedControlPointNumber` counter, used to build point IDs;
- the advisory `RequiredNumberOfControlPoints` and `MaximumNumberOfControlPoints`.

The model follows the documentation comments in `vtkMRMLMarkupsNode.h`.
Each operation is a pure function from
the node before the call to the node after it. The events the node would
invoke (`PointAddedEvent(index)`, `PointRemovedEvent(index)`,
`AllPointsRemovedEvent`, `PointModifiedEvent(index)`, `LockModifiedEvent`,
`LabelFormatModifiedEvent`) are appended to an event log that is part of the
node value.

Files and modules:

- `control_point.dfy` (`ControlPoints`): the `ControlPoint` record and its defaults.
- `markups_node.dfy` (`Markups`): the node state and every operation on it.
- `markups_trace.dfy` (`MarkupsTrace`): the operations as a state machine over call sequences.
- `markups_properties.dfy` (`MarkupsProperties`): lemmas relating operations to each other.
- `label_format.dfy` (`LabelFormat`): the `%N` substitution.
- `decimal.dfy` (`Decimal`): decimal rendering of the counter into IDs.
- `wrappers.dfy` (`Wrappers`): `Option`, standing for null pointers and absent names.

The node invariant `Markups.Valid` says that every live point has a non-empty
ID and that no two live points share one. No operation requires it. Each
operation promises `Valid(n) ==> Valid(result)`.

Decisions where the declaration is silent:

- Out-of-range string getters return the empty string. Out-of-range setters
  leave the node unchanged and log no event.
- A setter logs `PointModifiedEvent(i)` only when the point actually changes.
  `SetLocked` logs `LockModifiedEvent` only when the value changes.
  `SetMarkupLabelFormat` always logs `LabelFormatModifiedEvent`, because the
  declaration says it sets the format and then invokes the event.
- `SwapControlPoints` logs `PointModifiedEvent` for both indices.
- `ResetNthControlPointID` draws the new ID from `GenerateUniqueControlPointID`.
  It therefore advances `LastUsedControlPointNumber` and logs
  `PointModifiedEvent(i)`.
- The orientation-matrix and normal getters return no value for an invalid
  index. The declaration returns a `double*` there and does not say what it
  points to.
- `ReplaceListNameInMarkupLabelFormat` replaces every `%N` in a single
  left-to-right pass. Text that the list name brings in is not scanned again,
  so a list name that itself contains `%N` is copied as it is.
- Add and insert fail when the point already carries an ID that a live point
  uses. The failure result is -1 for add and false for insert. A point with an
  empty ID receives a generated one.
- `GenerateUniqueControlPointID` takes the no-scene path. It advances the
  counter past its current value and renders the new value in decimal. It
  also skips any number whose rendering is already a live ID, which keeps IDs
  unique even when a caller supplied a numeric ID. Every successful add or
  insert advances the counter: to the generator's value when the point needs
  an ID, and by exactly one when the point brings its own.
- `RemoveAllControlPoints` resets the counter to 0, as the declaration says.
  IDs issued before a clear can therefore be issued again after it. A reuse
  ban that also spans clears would contradict the documented reset.
- The per-point lock comment on `SetNthControlPointLocked` reads inverted. The
  model follows the `SetLocked` documentation instead: a locked list locks
  every point, and an unlocked list defers to each point's own flag.

## Model

| member | source | states |
|---|---|---|
| Markups.NewMarkupsNode | Modules/Loadable/Markups/MRML/vtkMRMLMarkupsNode.h:421-462 | a new node has no points, is unlocked, has the label format %N-%d, a required and a maximum number of control points of 0 (no preference, no limit), a counter of 0 and no events |
| ControlPoints.NewControlPoint | Modules/Loadable/Markups/MRML/vtkMRMLMarkupsNode.h:69-111 | a new point sits at the origin with the identity orientation (normal along +z), is selected, unlocked and visible, and has no ID yet |
| MarkupsProperties.ControlPointExistsIffInRange | Modules/Loadable/Markups/MRML/vtkMRMLMarkupsNode.h:214-223 | an index is valid exactly when it lies in [0, number of points), exactly when the point getter returns a point rather than null |
| MarkupsProperties.OutOfRangeDefaults | Modules/Loadable/Markups/MRML/vtkMRMLMarkupsNode.h:361-410 | for an invalid index the point getter returns null, the position is (0,0,0), the three flags read false and the strings read empty |
| Markups.AddControlPoint | Modules/Loadable/Markups/MRML/vtkMRMLMarkupsNode.h:236-239 | appends the point, returns the old size as its index, grows the list by one, keeps every earlier point in place and logs PointAdded; a point without an ID gets the generator's ID and counter value, and a point with its own ID keeps it and advances the counter by exactly one; returns -1 with the node unchanged exactly when the point's ID is already live |
| Markups.AddControlPointAt | Modules/Loadable/Markups/MRML/vtkMRMLMarkupsNode.h:234-235 | the new point is a default point with the given position and label, at index old size, with the generator's ID; the counter takes the generator's value, PointAdded is logged and no list setting changes |
| Markups.AddNControlPoints | Modules/Loadable/Markups/MRML/vtkMRMLMarkupsNode.h:226-230 | adds exactly count default points (constructor values apart from position, label and ID), at the given position or the origin, returns the last one's index (-1 when count <= 0), logs one PointAdded per new index, advances the counter by at least count, and gives no new point the ID of a counter value already passed |
| MarkupsProperties.AddedDefaultPointReadsBack | Modules/Loadable/Markups/MRML/vtkMRMLMarkupsNode.h:236-243 | a default point, once added, reads back through the getters at origin, normal (0,0,1), selected, unlocked, visible, with a non-empty ID |
| Markups.InsertControlPoint | Modules/Loadable/Markups/MRML/vtkMRMLMarkupsNode.h:264-270 | a negative target inserts at 0, a target past the last index appends, otherwise the point goes at the target; the result is old prefix, the point, old suffix; success exactly when the ID is not already live, with no change on failure; a point without an ID gets the generator's ID and the counter takes the generator's value, while a point with its own ID keeps it and the counter advances by exactly one |
| MarkupsProperties.AddIsInsertPastEnd | Modules/Loadable/Markups/MRML/vtkMRMLMarkupsNode.h:264-270 | inserting at any index at or past the size gives the same node as appending, and succeeds exactly when the append does |
| MarkupsProperties.InsertThenRemoveRestores | Modules/Loadable/Markups/MRML/vtkMRMLMarkupsNode.h:258-270 | removing the point at the clamped insertion index gives back the original list |
| Markups.RemoveNthControlPoint | Modules/Loadable/Markups/MRML/vtkMRMLMarkupsNode.h:258-259 | earlier points keep their index, later ones move down by one, PointRemoved carries the old index, the counter is kept, and an invalid index changes nothing |
| MarkupsProperties.RemoveKeepsOtherIDs | Modules/Loadable/Markups/MRML/vtkMRMLMarkupsNode.h:354-357 | after a removal the removed ID is not found; every other ID is found at its old index, or one lower if it followed the removed point |
| Markups.SwapControlPoints | Modules/Loadable/Markups/MRML/vtkMRMLMarkupsNode.h:272-273 | exchanges the two records and nothing else, the list stays a permutation of itself, and an invalid index changes nothing |
| MarkupsProperties.SwapTwiceRestores | Modules/Loadable/Markups/MRML/vtkMRMLMarkupsNode.h:272-273 | swapping the same pair twice restores the list |
| MarkupsProperties.SwapMovesIDs | Modules/Loadable/Markups/MRML/vtkMRMLMarkupsNode.h:272-273 | after a swap each of the two IDs is found at the other index, so IDs travel with their points |
| Markups.RemoveAllControlPoints | Modules/Loadable/Markups/MRML/vtkMRMLMarkupsNode.h:194-195 | leaves no points, resets the counter to 0, logs AllPointsRemoved and keeps the list settings |
| MarkupsProperties.ClearRestartsNumbering | Modules/Loadable/Markups/MRML/vtkMRMLMarkupsNode.h:539-542 | after a clear the next generated ID is "1", from counter value 1 |
| Markups.SetLocked | Modules/Loadable/Markups/MRML/vtkMRMLMarkupsNode.h:197-209 | sets the list lock without touching any point's stored lock flag or any other list setting, and logs LockModified only on a change |
| MarkupsProperties.ListLockOverridesPointLock | Modules/Loadable/Markups/MRML/vtkMRMLMarkupsNode.h:199-206 | after SetLocked(l), a point is effectively locked exactly when l is non-zero or its own flag is set |
| MarkupsProperties.LockToggleRestoresPointLocks | Modules/Loadable/Markups/MRML/vtkMRMLMarkupsNode.h:199-206 | locking then unlocking the list leaves every point as it was, effectively locked exactly when its own flag says so |
| MarkupsProperties.PointLockKeptUnderListLock | Modules/Loadable/Markups/MRML/vtkMRMLMarkupsNode.h:368-377 | a point flag set while the list is locked has no visible effect until the list is unlocked, and then it decides |
| Markups.SetNthControlPointSelected | Modules/Loadable/Markups/MRML/vtkMRMLMarkupsNode.h:361-366 | the getter then reads the new flag (false for an invalid index), no other point or field changes, and PointModified is logged exactly when the point changed |
| Markups.SetNthControlPointLocked | Modules/Loadable/Markups/MRML/vtkMRMLMarkupsNode.h:368-377 | the stored flag reads back as set, only that point and field change, and PointModified is logged exactly when the point changed |
| Markups.SetNthControlPointVisibility | Modules/Loadable/Markups/MRML/vtkMRMLMarkupsNode.h:385-395 | the visibility reads back as set, only that point and field change, and PointModified is logged exactly when the point changed |
| Markups.SetNthControlPointLabel | Modules/Loadable/Markups/MRML/vtkMRMLMarkupsNode.h:397-401 | the label reads back as set (empty for an invalid index), only that point and field change |
| Markups.SetNthControlPointDescription | Modules/Loadable/Markups/MRML/vtkMRMLMarkupsNode.h:408-412 | the description reads back as set (empty for an invalid index), only that point and field change |
| Markups.SetNthControlPointAssociatedNodeID | Modules/Loadable/Markups/MRML/vtkMRMLMarkupsNode.h:345-347 | the associated node ID reads back as set, only that point and field change |
| Markups.SetNthControlPointPosition | Modules/Loadable/Markups/MRML/vtkMRMLMarkupsNode.h:281-283 | the position getter then returns (x,y,z) for a valid index and (0,0,0) otherwise, only that point and field change |
| Markups.SetNthControlPointOrientationMatrix | Modules/Loadable/Markups/MRML/vtkMRMLMarkupsNode.h:327-336 | the matrix reads back as set and the normal getter returns its z axis (entries 6 to 8), only that point and field change |
| Markups.GenerateUniqueControlPointID | Modules/Loadable/Markups/MRML/vtkMRMLMarkupsNode.h:500-503 | the new ID is the decimal form of a counter value strictly above the last used number, and no live point has it; every number skipped on the way is a live ID, so the counter moves to last used + 1 whenever that number is free |
| Markups.FreshIDNumber | Modules/Loadable/Markups/MRML/vtkMRMLMarkupsNode.h:40 | yields the least number at or above the start whose decimal form is not among the taken IDs |
| Decimal.NatToStringInjective | Modules/Loadable/Markups/MRML/vtkMRMLMarkupsNode.h:500-503 | two counter values give the same ID exactly when they are equal |
| MarkupsProperties.GeneratedIDIsNew | Modules/Loadable/Markups/MRML/vtkMRMLMarkupsNode.h:539-542 | a generated ID differs from the ID of every counter value already passed |
| MarkupsTrace.NoIDReissuedWithoutClear | Modules/Loadable/Markups/MRML/vtkMRMLMarkupsNode.h:539-542 | after any sequence of operations without a clear, no ID built from an earlier counter value is generated again |
| MarkupsTrace.AddedIDNotReissued | Modules/Loadable/Markups/MRML/vtkMRMLMarkupsNode.h:539-542 | after any sequence of operations without a clear, a newly added point never stores the ID of a counter value already passed |
| MarkupsTrace.CounterNeverDecreases | Modules/Loadable/Markups/MRML/vtkMRMLMarkupsNode.h:539-542 | across any sequence of adds, inserts, removals, swaps and setters the counter never decreases |
| MarkupsTrace.RunPreservesValid | Modules/Loadable/Markups/MRML/vtkMRMLMarkupsNode.h:40 | from a node whose live IDs are non-empty and distinct, every sequence of the modelled operations keeps them so |
| MarkupsTrace.EventsOnlyAppended | Modules/Loadable/Markups/MRML/vtkMRMLMarkupsNode.h:167-177 | events already invoked stay in the log, in order, whatever operations follow |
| Markups.GetNthControlPointIndexByID | Modules/Loadable/Markups/MRML/vtkMRMLMarkupsNode.h:356-357 | returns -1 exactly when no live point has the ID, otherwise an index whose point has it, and under the invariant the only such index |
| MarkupsProperties.IndexByIDRoundTrip | Modules/Loadable/Markups/MRML/vtkMRMLMarkupsNode.h:354-357 | looking up the ID of a valid index n returns n, and the ID getter at a found index returns the ID looked up |
| Markups.GetNthControlPointByID | Modules/Loadable/Markups/MRML/vtkMRMLMarkupsNode.h:358-359 | returns a live point carrying the ID, or null exactly when no live point has it |
| Markups.ResetNthControlPointID | Modules/Loadable/Markups/MRML/vtkMRMLMarkupsNode.h:450-453 | false with no change for an invalid index; otherwise the point gets the generator's ID, which is non-empty and which no live point had (its old one included); the counter takes the generator's value, no other point and no list setting changes, and PointModified is logged |
| MarkupsProperties.MaximumIsAdvisory | Modules/Loadable/Markups/MRML/vtkMRMLMarkupsNode.h:460-468 | a list already at or above a non-zero maximum still accepts a new point and ends up above the maximum |
| Markups.SetMarkupLabelFormat | Modules/Loadable/Markups/MRML/vtkMRMLMarkupsNode.h:421-433 | the format reads back as set, no other list setting and no point changes, and LabelFormatModified is then logged |
| MarkupsProperties.LastLabelFormatWins | Modules/Loadable/Markups/MRML/vtkMRMLMarkupsNode.h:421-433 | setting the format twice leaves only the second format, with one LabelFormatModified per call, and a format without %N then expands to itself |
| Markups.ReplaceListNameInMarkupLabelFormat | Modules/Loadable/Markups/MRML/vtkMRMLMarkupsNode.h:435-439 | a format without %N comes back unchanged; the length changes by name length minus 2 per %N occurrence; with no name the result differs exactly when %N occurs |
| MarkupsProperties.ListNameStandsForPlaceholder | Modules/Loadable/Markups/MRML/vtkMRMLMarkupsNode.h:435-439 | for a format a + %N + b the result is the expansion of a, then the list name (empty when there is none), then the expansion of b; with no other %N it is exactly a + name + b |
| LabelFormat.ReplaceAroundPlaceholder | Modules/Loadable/Markups/MRML/vtkMRMLMarkupsNode.h:435-439 | the name is put exactly where a %N stood, and the text on either side is expanded on its own |
| LabelFormat.ErasingChangesIffPlaceholder | Modules/Loadable/Markups/MRML/vtkMRMLMarkupsNode.h:435-439 | replacing %N by the empty string changes the format exactly when it contains %N |
| LabelFormat.ReplaceLength | Modules/Loadable/Markups/MRML/vtkMRMLMarkupsNode.h:435-439 | every occurrence of %N is replaced: the result length is the format length plus, per occurrence, name length minus 2 |
| LabelFormat.ReplaceBySelfIsIdentity | Modules/Loadable/Markups/MRML/vtkMRMLMarkupsNode.h:435-439 | substituting the placeholder for itself gives the format back |
| MarkupsProperties.DefaultFormatExpansion | Modules/Loadable/Markups/MRML/vtkMRMLMarkupsNode.h:430-431 | the default format %N-%d expands to the list name followed by -%d |

## Left out

- Orientation conversion to and from WXYZ (axis-angle), and the WXYZ orientation getters and setters: these need floating-point trigonometry.
- World-coordinate getters and setters, the center position, `GetNthControlPointNormalWorld` and `ApplyTransform`: these depend on a possibly non-linear transform that is not part of this model, and on floating point.
- Curve generation (`GetCurvePointsWorld`, `GetCurveWorld`, `GetCurveWorldConnection`, `GetControlPointIndexFromInterpolatedPointIndex`, the curve poly updates): these are VTK pipeline objects and an external interpolation library.
- `GetRASBounds` and `GetBounds`: floating-point bounding boxes computed through transforms and curve geometry.
- XML and CLI I/O, `Copy`, `ProcessMRMLEvents`, display and storage node creation, `GetModifiedSinceRead` and modification times: serialization and scene plumbing.
- The text list (`AddText` through `RemoveAllTexts`): documented as unused.
- `GenerateControlPointLabel` and the `%d` part of the label format: only the `%N` substitution is modelled. An added point keeps the label it carries, even an empty one.
- The scene-wide ID service: the scene is not part of this model. `GenerateUniqueControlPointID` always takes the path without a scene.
- `SetNthControlPointID`, the protected raw ID setter used by storage nodes: loading is not modelled.
- Pointer access: `GetNthControlPoint`, `GetControlPoints`, `GetNthControlPointByID` and the `double*` getters (`GetNthControlPointOrientationMatrix`, `GetNthControlPointNormal`) hand out pointers into the node, and `AddControlPoint` keeps the pointer it is given. Writes through such pointers bypass the node's operations, so the invariant and the counter results hold only for changes made through the modelled operations. The model returns copies.
- The node-level display visibility that hides every point (documented with `SetNthControlPointVisibility` in `vtkMRMLMarkupsNode.h`, lines 388-392): it lives on the display node, which is not part of this model. Only the per-point visibility flag is modelled.
- The error logging of `ControlPointExists` (its optional `failedMethodName` argument, `vtkMRMLMarkupsNode.h` lines 213-216) and of the other operations given an invalid index: logging is output only, and the model keeps just the validity answer and the unchanged node.
- The null pointer passed to `AddControlPoint` or `InsertControlPoint`, and the null ID string passed to the lookups: a point or string is always present in the model.
- `RequiredNumberOfControlPoints` and `MaximumNumberOfControlPoints` are read-only fields here, because the declaration has no setter for them.
- Integer width: indices, the lock flag and `LastUsedControlPointNumber` are unbounded integers, so 32-bit overflow of the counter is not modelled.
- The `PointStartInteractionEvent`, `PointEndInteractionEvent` and `PointClickedEvent` events: deprecated GUI events that no modelled operation invokes.
- `qMRMLSceneTransformModel`: a Qt view-model adapter over scene reparenting, with no logic visible.

=== FILE: control_point.dfy ===
/** One control point of a markups node: a position and an orientation in the
    node's local coordinate system, identity and display strings, and three
    independent flags. Coordinates are carried as opaque reals; nothing here
    does arithmetic on them. */
module ControlPoints {

  /** A position or direction in local coordinates. */
  datatype Vec3 = Vec3(x: real, y: real, z: real)

  const Origin: Vec3 := Vec3(0.0, 0.0, 0.0)

  /** Nine values: the x axis direction (0, 1, 2), the y axis direction
      (3, 4, 5) and the z axis direction, the normal, (6, 7, 8). */
  type Orientation = m: seq<real> | |m| == 9 witness [1.0, 0.0, 0.0, 0.0, 1.0, 0.0, 0.0, 0.0, 1.0]

  const IdentityOrientation: Orientation := [1.0, 0.0, 0.0, 0.0, 1.0, 0.0, 0.0, 0.0, 1.0]

  function AxisX(m: Orientation): Vec3 { Vec3(m[0], m[1], m[2]) }

  function AxisY(m: Orientation): Vec3 { Vec3(m[3], m[4], m[5]) }

  /** The normal direction is the z axis of the orientation. */
  function AxisZ(m: Orientation): Vec3 { Vec3(m[6], m[7], m[8]) }

  datatype ControlPoint = ControlPoint(
    position: Vec3,
    orientation: Orientation,
    id: string,
    labelText: string,
    description: string,
    associatedNodeID: string,
    selected: bool,
    locked: bool,
    visibility: bool)

  /** A freshly constructed control point: at the origin, axes aligned with
      the coordinate axes, selected, unlocked and visible, with empty strings
      (an empty ID means "not yet assigned"). */
  function NewControlPoint(): (p: ControlPoint)
    ensures p.position == Vec3(0.0, 0.0, 0.0)
    ensures AxisX(p.orientation) == Vec3(1.0, 0.0, 0.0)
    ensures AxisY(p.orientation) == Vec3(0.0, 1.0, 0.0)
    ensures AxisZ(p.orientation) == Vec3(0.0, 0.0, 1.0)
    ensures p.selected && !p.locked && p.visibility
    ensures p.id == "" && p.labelText == "" && p.description == "" && p.associatedNodeID == ""
  {
    ControlPoint(Origin, IdentityOrientation, "", "", "", "", true, false, true)
  }
}

=== FILE: decimal.dfy ===
/** Decimal rendering of the control-point counter, used to build point IDs.
    The round trip through `ParseNat` shows that distinct counter values can
    never render to the same ID. */
module Decimal {

  /** The character of one decimal digit. */
  function DigitChar(d: nat): (c: char)
    requires d < 10
    ensures '0' <= c <= '9'
  {
    ('0' as int + d) as char
  }

  /** The value of a decimal digit character (0 for any other character). */
  function DigitValue(c: char): (d: nat)
    ensures d < 10
  {
    if '0' <= c <= '9' then c as int - '0' as int else 0
  }

  /** The shortest decimal representation of `n`. */
  function NatToString(n: nat): (s: string)
    ensures |s| >= 1
    ensures forall i :: 0 <= i < |s| ==> '0' <= s[i] <= '9'
    decreases n
  {
    if n < 10 then [DigitChar(n)] else NatToString(n / 10) + [DigitChar(n % 10)]
  }

  /** Reads a string of decimal digits back into a number. */
  function ParseNat(s: string): nat
    decreases |s|
  {
    if |s| == 0 then 0 else ParseNat(s[..|s| - 1]) * 10 + DigitValue(s[|s| - 1])
  }

  lemma DigitRoundTrip(d: nat)
    requires d < 10
    ensures DigitValue(DigitChar(d)) == d
  {
  }

  /** Parsing undoes rendering. */
  lemma {:induction false} ParseNatOfNatToString(n: nat)
    ensures ParseNat(NatToString(n)) == n
    decreases n
  {
    DigitRoundTrip(n % 10);
    if n < 10 {
      assert NatToString(n)[..0] == [];
    } else {
      var s := NatToString(n);
      assert s[..|s| - 1] == NatToString(n / 10);
      ParseNatOfNatToString(n / 10);
    }
  }

  /** Distinct numbers render to distinct strings. */
  lemma NatToStringInjective(a: nat, b: nat)
    ensures NatToString(a) == NatToString(b) <==> a == b
  {
    if NatToString(a) == NatToString(b) {
      ParseNatOfNatToString(a);
      ParseNatOfNatToString(b);
    }
  }
}

=== FILE: label_format.dfy ===
/** The `%N` list-name placeholder of a markups label format. A format such as
    `%N-%d` is expanded by replacing every `%N` with the list name; the `%d`
    part is not modelled here. */
module LabelFormat {

  /** `s` holds the two characters `%N` starting at position `i`. */
  predicate IsPlaceholderAt(s: string, i: int) {
    0 <= i && i + 1 < |s| && s[i] == '%' && s[i + 1] == 'N'
  }

  predicate ContainsPlaceholder(s: string) {
    exists i :: 0 <= i < |s| && IsPlaceholderAt(s, i)
  }

  /** Number of positions at which `%N` occurs; `%N` cannot overlap itself. */
  function PlaceholderCount(s: string): nat
    decreases |s|
  {
    if |s| == 0 then 0
    else (if IsPlaceholderAt(s, 0) then 1 else 0) + PlaceholderCount(s[1..])
  }

  /** Scans `s` left to right and replaces each `%N` by `name`; text coming
      from `name` is never rescanned. */
  function ReplacePlaceholder(s: string, name: string): string
    decreases |s|
  {
    if |s| < 2 then s
    else if s[0] == '%' && s[1] == 'N' then name + ReplacePlaceholder(s[2..], name)
    else [s[0]] + ReplacePlaceholder(s[1..], name)
  }

  lemma PlaceholderShift(s: string, i: int)
    requires |s| >= 1 && i >= 0
    ensures IsPlaceholderAt(s[1..], i) <==> IsPlaceholderAt(s, i + 1)
  {
  }

  /** A placeholder occurs exactly when the count is positive. */
  lemma {:induction false} CountPositiveIffContains(s: string)
    ensures PlaceholderCount(s) > 0 <==> ContainsPlaceholder(s)
    decreases |s|
  {
    if |s| == 0 {
    } else if IsPlaceholderAt(s, 0) {
    } else {
      CountPositiveIffContains(s[1..]);
      if ContainsPlaceholder(s) {
        var i :| 0 <= i < |s| && IsPlaceholderAt(s, i);
        PlaceholderShift(s, i - 1);
      }
      if ContainsPlaceholder(s[1..]) {
        var i :| 0 <= i < |s[1..]| && IsPlaceholderAt(s[1..], i);
        PlaceholderShift(s, i);
      }
    }
  }

  /** Each replaced `%N` swaps two characters for the name. */
  lemma {:induction false} ReplaceLength(s: string, name: string)
    ensures |ReplacePlaceholder(s, name)| == |s| + PlaceholderCount(s) * (|name| - 2)
    decreases |s|
  {
    if |s| < 2 {
      if |s| == 1 {
        assert !IsPlaceholderAt(s, 0);
        assert PlaceholderCount(s[1..]) == 0;
      }
    } else if s[0] == '%' && s[1] == 'N' {
      assert !IsPlaceholderAt(s[1..], 0);
      assert s[1..][1..] == s[2..];
      ReplaceLength(s[2..], name);
    } else {
      ReplaceLength(s[1..], name);
    }
  }

  /** A format without `%N` is returned unchanged. */
  lemma {:induction false} NoPlaceholderUnchanged(s: string, name: string)
    requires !ContainsPlaceholder(s)
    ensures ReplacePlaceholder(s, name) == s
    decreases |s|
  {
    if |s| >= 2 {
      assert !IsPlaceholderAt(s, 0);
      if ContainsPlaceholder(s[1..]) {
        var i :| 0 <= i < |s[1..]| && IsPlaceholderAt(s[1..], i);
        PlaceholderShift(s, i);
        assert false;
      }
      NoPlaceholderUnchanged(s[1..], name);
      assert [s[0]] + s[1..] == s;
    }
  }

  /** Substituting `%N` for itself changes nothing. */
  lemma {:induction false} ReplaceBySelfIsIdentity(s: string)
    ensures ReplacePlaceholder(s, "%N") == s
    decreases |s|
  {
    if |s| >= 2 {
      if s[0] == '%' && s[1] == 'N' {
        ReplaceBySelfIsIdentity(s[2..]);
        assert "%N" + s[2..] == s;
      } else {
        ReplaceBySelfIsIdentity(s[1..]);
        assert [s[0]] + s[1..] == s;
      }
    }
  }

  /** The name stands exactly where a `%N` stood: text before and after the
      placeholder is expanded on its own. */
  lemma {:induction false} ReplaceAroundPlaceholder(a: string, b: string, name: string)
    ensures ReplacePlaceholder(a + "%N" + b, name)
            == ReplacePlaceholder(a, name) + name + ReplacePlaceholder(b, name)
    decreases |a|
  {
    if |a| == 0 {
      AroundAtStart(a, b, name);
    } else if IsPlaceholderAt(a, 0) {
      ReplaceAroundPlaceholder(a[2..], b, name);
      AroundAfterPlaceholder(a, b, name);
    } else {
      ReplaceAroundPlaceholder(a[1..], b, name);
      AroundAfterOther(a, b, name);
    }
  }

  /** Base case: the format starts with the placeholder. */
  lemma AroundAtStart(a: string, b: string, name: string)
    requires |a| == 0
    ensures ReplacePlaceholder(a + "%N" + b, name)
            == ReplacePlaceholder(a, name) + name + ReplacePlaceholder(b, name)
  {
    var s := a + "%N" + b;
    assert IsPlaceholderAt(s, 0);
    assert s[2..] == b;
  }

  /** Step over a `%N` that precedes the one in the middle. */
  lemma AroundAfterPlaceholder(a: string, b: string, name: string)
    requires IsPlaceholderAt(a, 0)
    requires ReplacePlaceholder(a[2..] + "%N" + b, name)
             == ReplacePlaceholder(a[2..], name) + name + ReplacePlaceholder(b, name)
    ensures ReplacePlaceholder(a + "%N" + b, name)
            == ReplacePlaceholder(a, name) + name + ReplacePlaceholder(b, name)
  {
    var s := a + "%N" + b;
    assert IsPlaceholderAt(s, 0);
    assert s[2..] == a[2..] + "%N" + b;
  }

  /** Step over any other leading character. */
  lemma AroundAfterOther(a: string, b: string, name: string)
    requires |a| >= 1 && !IsPlaceholderAt(a, 0)
    requires ReplacePlaceholder(a[1..] + "%N" + b, name)
             == ReplacePlaceholder(a[1..], name) + name + ReplacePlaceholder(b, name)
    ensures ReplacePlaceholder(a + "%N" + b, name)
            == ReplacePlaceholder(a, name) + name + ReplacePlaceholder(b, name)
  {
    var s := a + "%N" + b;
    var head, tail := ReplacePlaceholder(a[1..], name), ReplacePlaceholder(b, name);
    assert !IsPlaceholderAt(s, 0) by {
      if |a| == 1 { assert s[1] == '%'; } else { assert s[1] == a[1]; }
    }
    assert s[1..] == a[1..] + "%N" + b;
    assert ReplacePlaceholder(s, name) == [a[0]] + (head + name + tail);
    assert ReplacePlaceholder(a, name) == [a[0]] + head by {
      if |a| == 1 { assert a[1..] == []; }
    }
  }

  /** With an empty name the format changes exactly when it holds `%N`. */
  lemma ErasingChangesIffPlaceholder(s: string)
    ensures ReplacePlaceholder(s, "") != s <==> ContainsPlaceholder(s)
  {
    CountPositiveIffContains(s);
    ReplaceLength(s, "");
    if !ContainsPlaceholder(s) {
      NoPlaceholderUnchanged(s, "");
    }
  }
}

=== FILE: markups_node.dfy ===
/** The control-point list of a markups node and the node-level state around
    it: the list-level lock, the label format, the point-number counter and the
    advisory point-count bounds. Every operation is a pure function from the
    node before the call to the node after it; the events the node would
    invoke are appended to `events`. */
module Markups {
  import opened Wrappers
  import opened ControlPoints
  import Decimal
  import LabelFormat

  /** The node's custom modified events; the payload is the control point
      index where the event carries one. */
  datatype Event =
    | LockModifiedEvent
    | LabelFormatModifiedEvent
    | PointAddedEvent(index: int)
    | PointRemovedEvent(index: int)
    | AllPointsRemovedEvent
    | PointModifiedEvent(index: int)

  datatype Node = Node(
    name: Option<string>,
    points: seq<ControlPoint>,
    locked: int,
    markupLabelFormat: string,
    lastUsedControlPointNumber: nat,
    requiredNumberOfControlPoints: int,
    maximumNumberOfControlPoints: int,
    events: seq<Event>)

  /** The result of an operation that reports success. */
  datatype Change = Change(node: Node, success: bool)

  /** The result of an add: the new index, or -1 on failure. */
  datatype Added = Added(node: Node, index: int)

  const DefaultMarkupLabelFormat := "%N-%d"

  /** Everything but the points, the counter and the event log. */
  predicate SameListSettings(a: Node, b: Node) {
    && a.name == b.name
    && a.locked == b.locked
    && a.markupLabelFormat == b.markupLabelFormat
    && a.requiredNumberOfControlPoints == b.requiredNumberOfControlPoints
    && a.maximumNumberOfControlPoints == b.maximumNumberOfControlPoints
  }

  // ---------------------------------------------------------------------------
  // Identity of control points
  // ---------------------------------------------------------------------------

  predicate DistinctIDs(pts: seq<ControlPoint>) {
    forall i, j :: 0 <= i < j < |pts| ==> pts[i].id != pts[j].id
  }

  predicate IDInUse(pts: seq<ControlPoint>, id: string) {
    exists j :: 0 <= j < |pts| && pts[j].id == id
  }

  function LiveIDs(pts: seq<ControlPoint>): (ids: set<string>)
    ensures forall id :: id in ids <==> IDInUse(pts, id)
  {
    set j | 0 <= j < |pts| :: pts[j].id
  }

  /** The node invariant: every live control point has an ID, and no two
      live control points share one. */
  predicate Valid(n: Node) {
    && DistinctIDs(n.points)
    && forall i :: 0 <= i < |n.points| ==> n.points[i].id != ""
  }

  /** A node as constructed: no points, unlocked, default label format, no
      point-count preference and no limit. */
  function NewMarkupsNode(name: Option<string>): (n: Node)
    ensures Valid(n) && GetNumberOfControlPoints(n) == 0
    ensures n.name == name && !IsListLocked(n)
    ensures n.markupLabelFormat == "%N-%d"
    ensures n.requiredNumberOfControlPoints == 0 && n.maximumNumberOfControlPoints == 0
    ensures n.lastUsedControlPointNumber == 0 && n.events == []
  {
    Node(name, [], 0, DefaultMarkupLabelFormat, 0, 0, 0, [])
  }

  // ---------------------------------------------------------------------------
  // Validity and reads
  // ---------------------------------------------------------------------------

  function GetNumberOfControlPoints(n: Node): nat {
    |n.points|
  }

  predicate ControlPointExists(n: Node, i: int) {
    0 <= i < |n.points|
  }

  /** The point itself, or None (the null pointer) when `i` is out of range. */
  function GetNthControlPoint(n: Node, i: int): Option<ControlPoint> {
    if ControlPointExists(n, i) then Some(n.points[i]) else None
  }

  function GetNthControlPointPositionVector(n: Node, i: int): Vec3 {
    if ControlPointExists(n, i) then n.points[i].position else Origin
  }

  function GetNthControlPointOrientationMatrix(n: Node, i: int): Option<Orientation> {
    if ControlPointExists(n, i) then Some(n.points[i].orientation) else None
  }

  function GetNthControlPointNormal(n: Node, i: int): Option<Vec3> {
    if ControlPointExists(n, i) then Some(AxisZ(n.points[i].orientation)) else None
  }

  function GetNthControlPointSelected(n: Node, i: int): bool {
    ControlPointExists(n, i) && n.points[i].selected
  }

  /** The flag stored on the point, whatever the list-level lock says. */
  function GetNthControlPointLocked(n: Node, i: int): bool {
    ControlPointExists(n, i) && n.points[i].locked
  }

  function GetNthControlPointVisibility(n: Node, i: int): bool {
    ControlPointExists(n, i) && n.points[i].visibility
  }

  function GetNthControlPointLabel(n: Node, i: int): string {
    if ControlPointExists(n, i) then n.points[i].labelText else ""
  }

  function GetNthControlPointDescription(n: Node, i: int): string {
    if ControlPointExists(n, i) then n.points[i].description else ""
  }

  function GetNthControlPointAssociatedNodeID(n: Node, i: int): string {
    if ControlPointExists(n, i) then n.points[i].associatedNodeID else ""
  }

  function GetNthControlPointID(n: Node, i: int): string {
    if ControlPointExists(n, i) then n.points[i].id else ""
  }

  // ---------------------------------------------------------------------------
  // Locking
  // ---------------------------------------------------------------------------

  predicate IsListLocked(n: Node) {
    n.locked != 0
  }

  /** Whether interaction with point `i` is disabled: a locked list locks
      every point; an unlocked list defers to the point's own flag. */
  predicate IsNthControlPointEffectivelyLocked(n: Node, i: int) {
    ControlPointExists(n, i) && (IsListLocked(n) || n.points[i].locked)
  }

  /** Sets the list-level lock. The per-point flags are left untouched so that
      they take effect again once the list is unlocked. */
  function SetLocked(n: Node, locked: int): (r: Node)
    ensures r.locked == locked
    ensures SameListSettings(n.(locked := locked), r)
    ensures r.points == n.points
    ensures forall i :: GetNthControlPointLocked(r, i) == GetNthControlPointLocked(n, i)
    ensures r.lastUsedControlPointNumber == n.lastUsedControlPointNumber
    ensures r.events == n.events + (if n.locked == locked then [] else [LockModifiedEvent])
    ensures Valid(n) ==> Valid(r)
  {
    if n.locked == locked then n
    else n.(locked := locked, events := n.events + [LockModifiedEvent])
  }

  // ---------------------------------------------------------------------------
  // Per-point setters
  // ---------------------------------------------------------------------------

  /** `r` differs from `n` at most in the point at `i` and in the event log. */
  predicate OnlyPointChanged(n: Node, r: Node, i: int) {
    && |r.points| == |n.points|
    && (forall j :: 0 <= j < |n.points| && j != i ==> r.points[j] == n.points[j])
    && SameListSettings(n, r)
    && r.lastUsedControlPointNumber == n.lastUsedControlPointNumber
  }

  /** A point-modified event is logged exactly when the point changed. */
  predicate LogsModification(n: Node, r: Node, i: int) {
    r.events == n.events + (if r.points == n.points then [] else [PointModifiedEvent(i)])
  }

  /** Replaces point `i` by `p`; an out-of-range index or an unchanged point
      leaves the node as it was. */
  function ReplaceNthControlPoint(n: Node, i: int, p: ControlPoint): (r: Node)
    ensures OnlyPointChanged(n, r, i)
    ensures LogsModification(n, r, i)
    ensures ControlPointExists(n, i) ==> r.points[i] == p
    ensures !ControlPointExists(n, i) ==> r == n
    ensures Valid(n) && (ControlPointExists(n, i) ==> p.id == n.points[i].id) ==> Valid(r)
  {
    if !ControlPointExists(n, i) || n.points[i] == p then n
    else n.(points := n.points[i := p], events := n.events + [PointModifiedEvent(i)])
  }

  function SetNthControlPointSelected(n: Node, i: int, flag: bool): (r: Node)
    ensures OnlyPointChanged(n, r, i) && LogsModification(n, r, i)
    ensures GetNthControlPointSelected(r, i) == (ControlPointExists(n, i) && flag)
    ensures ControlPointExists(n, i) ==> r.points[i].(selected := n.points[i].selected) == n.points[i]
    ensures Valid(n) ==> Valid(r)
  {
    if ControlPointExists(n, i) then ReplaceNthControlPoint(n, i, n.points[i].(selected := flag)) else n
  }

  /** Sets the point's own lock flag; the list-level lock is not consulted. */
  function SetNthControlPointLocked(n: Node, i: int, flag: bool): (r: Node)
    ensures OnlyPointChanged(n, r, i) && LogsModification(n, r, i)
    ensures GetNthControlPointLocked(r, i) == (ControlPointExists(n, i) && flag)
    ensures ControlPointExists(n, i) ==> r.points[i].(locked := n.points[i].locked) == n.points[i]
    ensures Valid(n) ==> Valid(r)
  {
    if ControlPointExists(n, i) then ReplaceNthControlPoint(n, i, n.points[i].(locked := flag)) else n
  }

  function SetNthControlPointVisibility(n: Node, i: int, flag: bool): (r: Node)
    ensures OnlyPointChanged(n, r, i) && LogsModification(n, r, i)
    ensures GetNthControlPointVisibility(r, i) == (ControlPointExists(n, i) && flag)
    ensures ControlPointExists(n, i) ==> r.points[i].(visibility := n.points[i].visibility) == n.points[i]
    ensures Valid(n) ==> Valid(r)
  {
    if ControlPointExists(n, i) then ReplaceNthControlPoint(n, i, n.points[i].(visibility := flag)) else n
  }

  function SetNthControlPointLabel(n: Node, i: int, text: string): (r: Node)
    ensures OnlyPointChanged(n, r, i) && LogsModification(n, r, i)
    ensures GetNthControlPointLabel(r, i) == (if ControlPointExists(n, i) then text else "")
    ensures ControlPointExists(n, i) ==> r.points[i].(labelText := n.points[i].labelText) == n.points[i]
    ensures Valid(n) ==> Valid(r)
  {
    if ControlPointExists(n, i) then ReplaceNthControlPoint(n, i, n.points[i].(labelText := text)) else n
  }

  function SetNthControlPointDescription(n: Node, i: int, text: string): (r: Node)
    ensures OnlyPointChanged(n, r, i) && LogsModification(n, r, i)
    ensures GetNthControlPointDescription(r, i) == (if ControlPointExists(n, i) then text else "")
    ensures ControlPointExists(n, i) ==> r.points[i].(description := n.points[i].description) == n.points[i]
    ensures Valid(n) ==> Valid(r)
  {
    if ControlPointExists(n, i) then ReplaceNthControlPoint(n, i, n.points[i].(description := text)) else n
  }

  function SetNthControlPointAssociatedNodeID(n: Node, i: int, id: string): (r: Node)
    ensures OnlyPointChanged(n, r, i) && LogsModification(n, r, i)
    ensures GetNthControlPointAssociatedNodeID(r, i) == (if ControlPointExists(n, i) then id else "")
    ensures ControlPointExists(n, i) ==> r.points[i].(associatedNodeID := n.points[i].associatedNodeID) == n.points[i]
    ensures Valid(n) ==> Valid(r)
  {
    if ControlPointExists(n, i) then ReplaceNthControlPoint(n, i, n.points[i].(associatedNodeID := id)) else n
  }

  function SetNthControlPointPosition(n: Node, i: int, x: real, y: real, z: real): (r: Node)
    ensures OnlyPointChanged(n, r, i) && LogsModification(n, r, i)
    ensures GetNthControlPointPositionVector(r, i) == (if ControlPointExists(n, i) then Vec3(x, y, z) else Origin)
    ensures ControlPointExists(n, i) ==> r.points[i].(position := n.points[i].position) == n.points[i]
    ensures Valid(n) ==> Valid(r)
  {
    if ControlPointExists(n, i) then ReplaceNthControlPoint(n, i, n.points[i].(position := Vec3(x, y, z))) else n
  }

  function SetNthControlPointOrientationMatrix(n: Node, i: int, m: Orientation): (r: Node)
    ensures OnlyPointChanged(n, r, i) && LogsModification(n, r, i)
    ensures GetNthControlPointOrientationMatrix(r, i) == (if ControlPointExists(n, i) then Some(m) else None)
    ensures ControlPointExists(n, i) ==> GetNthControlPointNormal(r, i) == Some(Vec3(m[6], m[7], m[8]))
    ensures ControlPointExists(n, i) ==> r.points[i].(orientation := n.points[i].orientation) == n.points[i]
    ensures Valid(n) ==> Valid(r)
  {
    if ControlPointExists(n, i) then ReplaceNthControlPoint(n, i, n.points[i].(orientation := m)) else n
  }

  // ---------------------------------------------------------------------------
  // ID generation and lookup
  // ---------------------------------------------------------------------------

  /** The least number at or above `k` whose decimal form is not in `taken`. */
  function FreshIDNumber(taken: set<string>, k: nat): (m: nat)
    ensures m >= k
    ensures Decimal.NatToString(m) !in taken
    ensures forall j :: k <= j < m ==> Decimal.NatToString(j) in taken
    decreases |taken|
  {
    var s := Decimal.NatToString(k);
    if s in taken then
      var m := FreshIDNumber(taken - {s}, k + 1);
      Decimal.NatToStringInjective(m, k);
      m
    else k
  }

  datatype GeneratedID = GeneratedID(id: string, counter: nat)

  /** The next point ID, built from the point-number counter: the counter is
      advanced past its current value, and past any number whose decimal form
      is already the ID of a live point. */
  function GenerateUniqueControlPointID(n: Node): (g: GeneratedID)
    ensures g.counter > n.lastUsedControlPointNumber
    ensures g.id == Decimal.NatToString(g.counter)
    ensures g.id != ""
    ensures !IDInUse(n.points, g.id)
    ensures forall j :: n.lastUsedControlPointNumber < j < g.counter ==> IDInUse(n.points, Decimal.NatToString(j))
    ensures !IDInUse(n.points, Decimal.NatToString(n.lastUsedControlPointNumber + 1))
            ==> g.counter == n.lastUsedControlPointNumber + 1
  {
    var m := FreshIDNumber(LiveIDs(n.points), n.lastUsedControlPointNumber + 1);
    GeneratedID(Decimal.NatToString(m), m)
  }

  /** Index of the first point at or after `from` whose ID is `id`, or -1. */
  function IndexOfID(pts: seq<ControlPoint>, id: string, from: nat): (k: int)
    requires from <= |pts|
    ensures k == -1 || from <= k < |pts|
    ensures k == -1 <==> forall j :: from <= j < |pts| ==> pts[j].id != id
    ensures k != -1 ==> pts[k].id == id && forall j :: from <= j < k ==> pts[j].id != id
    decreases |pts| - from
  {
    if from == |pts| then -1
    else if pts[from].id == id then from
    else IndexOfID(pts, id, from + 1)
  }

  /** The index of the point with ID `id`, or -1 if no live point has it. */
  function GetNthControlPointIndexByID(n: Node, id: string): (k: int)
    ensures -1 <= k < |n.points|
    ensures k == -1 <==> !IDInUse(n.points, id)
    ensures k != -1 ==> n.points[k].id == id
    ensures Valid(n) && k != -1 ==> forall j :: 0 <= j < |n.points| && n.points[j].id == id ==> j == k
  {
    IndexOfID(n.points, id, 0)
  }

  /** The point with ID `id`, or None (the null pointer). */
  function GetNthControlPointByID(n: Node, id: string): (p: Option<ControlPoint>)
    ensures p.Some? <==> IDInUse(n.points, id)
    ensures p.Some? ==> p.value.id == id && p.value in n.points
  {
    var k := GetNthControlPointIndexByID(n, id);
    if k == -1 then None else Some(n.points[k])
  }

  /** Gives point `i` a newly generated ID; false when `i` is out of range. */
  function ResetNthControlPointID(n: Node, i: int): (r: Change)
    ensures r.success <==> ControlPointExists(n, i)
    ensures !r.success ==> r.node == n
    ensures r.success ==>
      && |r.node.points| == |n.points|
      && (forall j :: 0 <= j < |n.points| && j != i ==> r.node.points[j] == n.points[j])
      && r.node.points[i].(id := n.points[i].id) == n.points[i]
      && r.node.points[i].id != ""
      && !IDInUse(n.points, r.node.points[i].id)
      && r.node.points[i].id == GenerateUniqueControlPointID(n).id
      && r.node.lastUsedControlPointNumber == GenerateUniqueControlPointID(n).counter
      && r.node.lastUsedControlPointNumber > n.lastUsedControlPointNumber
      && r.node.events == n.events + [PointModifiedEvent(i)]
      && SameListSettings(n, r.node)
    ensures Valid(n) ==> Valid(r.node)
  {
    if !ControlPointExists(n, i) then Change(n, false)
    else
      var g := GenerateUniqueControlPointID(n);
      var pts := n.points[i := n.points[i].(id := g.id)];
      assert Valid(n) ==> DistinctIDs(pts) by {
        if Valid(n) {
          forall a, b | 0 <= a < b < |pts| ensures pts[a].id != pts[b].id {
            if a != i && b != i {
              assert pts[a] == n.points[a] && pts[b] == n.points[b];
            }
          }
        }
      }
      Change(n.(points := pts, lastUsedControlPointNumber := g.counter,
                events := n.events + [PointModifiedEvent(i)]), true)
  }

  // ---------------------------------------------------------------------------
  // Adding
  // ---------------------------------------------------------------------------

  /** The point as it will be stored, with its ID assigned, and the new
      counter; None when the point carries an ID that is already live. */
  function Admit(n: Node, cp: ControlPoint): (a: Option<(ControlPoint, nat)>)
    ensures a.None? <==> cp.id != "" && IDInUse(n.points, cp.id)
    ensures a.Some? ==>
      && a.value.0.(id := cp.id) == cp
      && (cp.id != "" ==> a.value.0.id == cp.id)
      && a.value.0.id != ""
      && !IDInUse(n.points, a.value.0.id)
      && a.value.1 > n.lastUsedControlPointNumber
  {
    if cp.id == "" then
      var g := GenerateUniqueControlPointID(n);
      Some((cp.(id := g.id), g.counter))
    else if cp.id in LiveIDs(n.points) then None
    else Some((cp, n.lastUsedControlPointNumber + 1))
  }

  lemma InsertKeepsValid(pts: seq<ControlPoint>, k: nat, p: ControlPoint)
    requires k <= |pts|
    requires DistinctIDs(pts) && forall i :: 0 <= i < |pts| ==> pts[i].id != ""
    requires p.id != "" && !IDInUse(pts, p.id)
    ensures var q := pts[..k] + [p] + pts[k..];
      DistinctIDs(q) && forall i :: 0 <= i < |q| ==> q[i].id != ""
  {
  }

  /** Inserts `cp` at `targetIndex`, clamped to the list: a negative index
      inserts at the start, an index past the last point appends. Fails,
      leaving the node unchanged, when `cp` carries an ID already in use. */
  function InsertControlPoint(n: Node, cp: ControlPoint, targetIndex: int): (r: Change)
    ensures r.success <==> (cp.id == "" || !IDInUse(n.points, cp.id))
    ensures !r.success ==> r.node == n
    ensures r.success ==>
      var k := if targetIndex < 0 then 0
               else if targetIndex > |n.points| - 1 then |n.points|
               else targetIndex;
      && |r.node.points| == |n.points| + 1
      && r.node.points[..k] == n.points[..k]
      && r.node.points[k + 1..] == n.points[k..]
      && r.node.points[k].(id := cp.id) == cp
      && (cp.id != "" ==> r.node.points[k].id == cp.id
                          && r.node.lastUsedControlPointNumber == n.lastUsedControlPointNumber + 1)
      && (cp.id == "" ==> r.node.points[k].id == GenerateUniqueControlPointID(n).id
                          && r.node.lastUsedControlPointNumber == GenerateUniqueControlPointID(n).counter)
      && !IDInUse(n.points, r.node.points[k].id)
      && r.node.lastUsedControlPointNumber > n.lastUsedControlPointNumber
      && r.node.events == n.events + [PointAddedEvent(k)]
      && SameListSettings(n, r.node)
    ensures Valid(n) ==> Valid(r.node)
  {
    match Admit(n, cp)
    case None => Change(n, false)
    case Some((p, counter)) =>
      var k := if targetIndex < 0 then 0
               else if targetIndex >= |n.points| then |n.points|
               else targetIndex;
      var pts := n.points[..k] + [p] + n.points[k..];
      assert pts[..k] == n.points[..k] && pts[k + 1..] == n.points[k..];
      assert Valid(n) ==> DistinctIDs(pts) && forall j :: 0 <= j < |pts| ==> pts[j].id != "" by {
        if Valid(n) { InsertKeepsValid(n.points, k, p); }
      }
      Change(n.(points := pts, lastUsedControlPointNumber := counter,
                events := n.events + [PointAddedEvent(k)]), true)
  }

  /** Appends `cp` and returns its index, the old size, or -1 when `cp`
      carries an ID already in use. The maximum number of control points is
      not consulted. */
  function AddControlPoint(n: Node, cp: ControlPoint): (r: Added)
    ensures r.index == -1 <==> (cp.id != "" && IDInUse(n.points, cp.id))
    ensures r.index == -1 ==> r.node == n
    ensures r.index != -1 ==>
      && r.index == |n.points|
      && |r.node.points| == |n.points| + 1
      && r.node.points[..|n.points|] == n.points
      && r.node.points[r.index].(id := cp.id) == cp
      && (cp.id != "" ==> r.node.points[r.index].id == cp.id
                          && r.node.lastUsedControlPointNumber == n.lastUsedControlPointNumber + 1)
      && (cp.id == "" ==> r.node.points[r.index].id == GenerateUniqueControlPointID(n).id
                          && r.node.lastUsedControlPointNumber == GenerateUniqueControlPointID(n).counter)
      && r.node.lastUsedControlPointNumber > n.lastUsedControlPointNumber
      && r.node.events == n.events + [PointAddedEvent(r.index)]
      && SameListSettings(n, r.node)
    ensures Valid(n) ==> Valid(r.node)
  {
    var c := InsertControlPoint(n, cp, |n.points|);
    Added(c.node, if c.success then |n.points| else -1)
  }

  /** Adds a new default point at `position` carrying `text` as its label. */
  function AddControlPointAt(n: Node, position: Vec3, text: string): (r: Added)
    ensures r.index == |n.points|
    ensures |r.node.points| == |n.points| + 1
    ensures r.node.points[..|n.points|] == n.points
    ensures GetNthControlPointPositionVector(r.node, r.index) == position
    ensures GetNthControlPointLabel(r.node, r.index) == text
    ensures GetNthControlPointSelected(r.node, r.index)
    ensures !GetNthControlPointLocked(r.node, r.index)
    ensures GetNthControlPointVisibility(r.node, r.index)
    ensures r.node.points[r.index].(id := "") == NewControlPoint().(position := position, labelText := text)
    ensures r.node.points[r.index].id == GenerateUniqueControlPointID(n).id
    ensures r.node.lastUsedControlPointNumber == GenerateUniqueControlPointID(n).counter
    ensures r.node.events == n.events + [PointAddedEvent(r.index)]
    ensures SameListSettings(n, r.node)
    ensures Valid(n) ==> Valid(r.node)
  {
    AddControlPoint(n, NewControlPoint().(position := position, labelText := text))
  }

  /** No point from index `from` on carries the ID of a counter value at or
      below `bound`. */
  predicate IssuedAfter(pts: seq<ControlPoint>, from: nat, bound: nat) {
    forall j, k: nat :: from <= j < |pts| && k <= bound ==> pts[j].id != Decimal.NatToString(k)
  }

  /** Appending a point with a generated ID keeps the points from `from` on
      clear of IDs issued at or below `bound`. */
  lemma AddKeepsIssuedAfter(m: Node, a: Added, from: nat, bound: nat)
    requires bound <= m.lastUsedControlPointNumber
    requires IssuedAfter(m.points, from, bound)
    requires |a.node.points| == |m.points| + 1 && a.node.points[..|m.points|] == m.points
    requires a.node.points[|m.points|].id == Decimal.NatToString(a.node.lastUsedControlPointNumber)
    requires a.node.lastUsedControlPointNumber > m.lastUsedControlPointNumber
    ensures IssuedAfter(a.node.points, from, bound)
  {
    forall j, k: nat | from <= j < |a.node.points| && k <= bound
      ensures a.node.points[j].id != Decimal.NatToString(k)
    {
      if j < |m.points| {
        assert a.node.points[j] == m.points[j];
      } else {
        Decimal.NatToStringInjective(a.node.lastUsedControlPointNumber, k);
      }
    }
  }

  /** Adds `count` default points, at `position` if given and at the origin
      otherwise, each labelled `text`. Returns the index of the last point
      placed, or -1 when none was. */
  method AddNControlPoints(n: Node, count: int, text: string, position: Option<Vec3>)
    returns (r: Node, last: int)
    ensures count <= 0 ==> r == n && last == -1
    ensures count > 0 ==> last == |n.points| + count - 1
    ensures |r.points| == |n.points| + (if count > 0 then count else 0)
    ensures r.points[..|n.points|] == n.points
    ensures forall j :: |n.points| <= j < |r.points| ==>
      && r.points[j].position == position.GetOr(Origin)
      && r.points[j].labelText == text
      && r.points[j].selected && !r.points[j].locked && r.points[j].visibility
      && r.points[j].(id := "") == NewControlPoint().(position := position.GetOr(Origin), labelText := text)
    ensures r.events == n.events + seq(|r.points| - |n.points|, j => PointAddedEvent(|n.points| + j))
    ensures r.lastUsedControlPointNumber >= n.lastUsedControlPointNumber + (if count > 0 then count else 0)
    ensures forall j, k: nat :: |n.points| <= j < |r.points| && k <= n.lastUsedControlPointNumber
              ==> r.points[j].id != Decimal.NatToString(k)
    ensures SameListSettings(n, r)
    ensures Valid(n) ==> Valid(r)
  {
    r, last := n, -1;
    var i := 0;
    while i < count
      invariant 0 <= i <= (if count > 0 then count else 0)
      invariant |r.points| == |n.points| + i
      invariant r.points[..|n.points|] == n.points
      invariant forall j :: |n.points| <= j < |r.points| ==>
        && r.points[j].position == position.GetOr(Origin)
        && r.points[j].labelText == text
        && r.points[j].selected && !r.points[j].locked && r.points[j].visibility
        && r.points[j].(id := "") == NewControlPoint().(position := position.GetOr(Origin), labelText := text)
      invariant r.events == n.events + seq(i, j => PointAddedEvent(|n.points| + j))
      invariant i == 0 ==> r == n && last == -1
      invariant i > 0 ==> last == |n.points| + i - 1
      invariant r.lastUsedControlPointNumber >= n.lastUsedControlPointNumber + i
      invariant IssuedAfter(r.points, |n.points|, n.lastUsedControlPointNumber)
      invariant SameListSettings(n, r)
      invariant Valid(n) ==> Valid(r)
    {
      var a := AddControlPoint(r, NewControlPoint().(position := position.GetOr(Origin), labelText := text));
      assert a.node.points[..|r.points|] == r.points;
      assert a.node.points[..|n.points|] == a.node.points[..|r.points|][..|n.points|];
      AddKeepsIssuedAfter(r, a, |n.points|, n.lastUsedControlPointNumber);
      r, last := a.node, a.index;
      i := i + 1;
    }
  }

  // ---------------------------------------------------------------------------
  // Removing and reordering
  // ---------------------------------------------------------------------------

  /** Removes point `i`; later points move down by one. An out-of-range index
      leaves the node unchanged. The counter is not decreased. */
  function RemoveNthControlPoint(n: Node, i: int): (r: Node)
    ensures !ControlPointExists(n, i) ==> r == n
    ensures ControlPointExists(n, i) ==>
      && |r.points| == |n.points| - 1
      && (forall j :: 0 <= j < i ==> r.points[j] == n.points[j])
      && (forall j :: i <= j < |r.points| ==> r.points[j] == n.points[j + 1])
      && r.events == n.events + [PointRemovedEvent(i)]
    ensures r.lastUsedControlPointNumber == n.lastUsedControlPointNumber
    ensures SameListSettings(n, r)
    ensures Valid(n) ==> Valid(r)
  {
    if !ControlPointExists(n, i) then n
    else
      var pts := n.points[..i] + n.points[i + 1..];
      assert forall j :: 0 <= j < |pts| ==> pts[j] == (if j < i then n.points[j] else n.points[j + 1]);
      n.(points := pts, events := n.events + [PointRemovedEvent(i)])
  }

  /** Exchanges the points at `m1` and `m2`, IDs included; if either index is
      out of range the node is unchanged. */
  function SwapControlPoints(n: Node, m1: int, m2: int): (r: Node)
    ensures !(ControlPointExists(n, m1) && ControlPointExists(n, m2)) ==> r == n
    ensures ControlPointExists(n, m1) && ControlPointExists(n, m2) ==>
      && |r.points| == |n.points|
      && r.points[m1] == n.points[m2]
      && r.points[m2] == n.points[m1]
      && (forall j :: 0 <= j < |n.points| && j != m1 && j != m2 ==> r.points[j] == n.points[j])
      && r.events == n.events + [PointModifiedEvent(m1), PointModifiedEvent(m2)]
    ensures multiset(r.points) == multiset(n.points)
    ensures r.lastUsedControlPointNumber == n.lastUsedControlPointNumber
    ensures SameListSettings(n, r)
    ensures Valid(n) ==> Valid(r)
  {
    if !(ControlPointExists(n, m1) && ControlPointExists(n, m2)) then n
    else
      var pts := n.points[m1 := n.points[m2]][m2 := n.points[m1]];
      assert Valid(n) ==> DistinctIDs(pts) by {
        if Valid(n) {
          forall a, b | 0 <= a < b < |pts| ensures pts[a].id != pts[b].id {
            var a' := if a == m1 then m2 else if a == m2 then m1 else a;
            var b' := if b == m1 then m2 else if b == m2 then m1 else b;
            assert pts[a] == n.points[a'] && pts[b] == n.points[b'];
          }
        }
      }
      n.(points := pts, events := n.events + [PointModifiedEvent(m1), PointModifiedEvent(m2)])
  }

  /** Empties the list and resets the point-number counter. */
  function RemoveAllControlPoints(n: Node): (r: Node)
    ensures GetNumberOfControlPoints(r) == 0
    ensures r.lastUsedControlPointNumber == 0
    ensures r.events == n.events + [AllPointsRemovedEvent]
    ensures SameListSettings(n, r)
    ensures Valid(r)
  {
    n.(points := [], lastUsedControlPointNumber := 0, events := n.events + [AllPointsRemovedEvent])
  }

  // ---------------------------------------------------------------------------
  // Label format
  // ---------------------------------------------------------------------------

  /** Sets the label format, then invokes the label-format event. */
  function SetMarkupLabelFormat(n: Node, format: string): (r: Node)
    ensures r.markupLabelFormat == format
    ensures SameListSettings(n.(markupLabelFormat := format), r)
    ensures r.points == n.points && r.lastUsedControlPointNumber == n.lastUsedControlPointNumber
    ensures r.events == n.events + [LabelFormatModifiedEvent]
    ensures Valid(n) ==> Valid(r)
  {
    n.(markupLabelFormat := format, events := n.events + [LabelFormatModifiedEvent])
  }

  /** The label format with every `%N` replaced by the list name, or by the
      empty string when the node has no name. */
  function ReplaceListNameInMarkupLabelFormat(n: Node): (r: string)
    ensures !LabelFormat.ContainsPlaceholder(n.markupLabelFormat) ==> r == n.markupLabelFormat
    ensures |r| == |n.markupLabelFormat|
                   + LabelFormat.PlaceholderCount(n.markupLabelFormat) * (|n.name.GetOr("")| - 2)
    ensures n.name.None? ==> (r != n.markupLabelFormat <==> LabelFormat.ContainsPlaceholder(n.markupLabelFormat))
  {
    var format := n.markupLabelFormat;
    var listName := n.name.GetOr("");
    LabelFormat.ReplaceLength(format, listName);
    assert !LabelFormat.ContainsPlaceholder(format) ==> LabelFormat.ReplacePlaceholder(format, listName) == format by {
      if !LabelFormat.ContainsPlaceholder(format) {
        LabelFormat.NoPlaceholderUnchanged(format, listName);
      }
    }
    LabelFormat.ErasingChangesIffPlaceholder(format);
    LabelFormat.ReplacePlaceholder(format, listName)
  }
}

=== FILE: markups_properties.dfy ===
/** Properties relating the operations of the markups node to each other:
    inverses, round trips through ID lookup, the non-destructive list lock and
    the advisory point limit. */
module MarkupsProperties {
  import opened Wrappers
  import opened ControlPoints
  import opened Markups
  import Decimal
  import LabelFormat

  /** An index is valid exactly when it lies in `[0, size)`, which is exactly
      when the point getter returns a point. */
  lemma ControlPointExistsIffInRange(n: Node, i: int)
    ensures ControlPointExists(n, i) <==> 0 <= i < GetNumberOfControlPoints(n)
    ensures ControlPointExists(n, i) <==> GetNthControlPoint(n, i).Some?
  {
  }

  /** Every read of an invalid index yields the documented default. */
  lemma OutOfRangeDefaults(n: Node, i: int)
    requires !ControlPointExists(n, i)
    ensures GetNthControlPoint(n, i) == None
    ensures GetNthControlPointPositionVector(n, i) == Vec3(0.0, 0.0, 0.0)
    ensures !GetNthControlPointSelected(n, i)
    ensures !GetNthControlPointLocked(n, i)
    ensures !GetNthControlPointVisibility(n, i)
    ensures GetNthControlPointLabel(n, i) == "" && GetNthControlPointDescription(n, i) == ""
    ensures GetNthControlPointAssociatedNodeID(n, i) == "" && GetNthControlPointID(n, i) == ""
    ensures GetNthControlPointOrientationMatrix(n, i) == None && GetNthControlPointNormal(n, i) == None
  {
  }

  /** A default point added to the list reads back with the defaults of the
      point constructor. */
  lemma AddedDefaultPointReadsBack(n: Node)
    ensures var a := AddControlPoint(n, NewControlPoint());
      && a.index == |n.points|
      && GetNthControlPointPositionVector(a.node, a.index) == Vec3(0.0, 0.0, 0.0)
      && GetNthControlPointNormal(a.node, a.index) == Some(Vec3(0.0, 0.0, 1.0))
      && GetNthControlPointSelected(a.node, a.index)
      && !GetNthControlPointLocked(a.node, a.index)
      && GetNthControlPointVisibility(a.node, a.index)
      && GetNthControlPointID(a.node, a.index) != ""
  {
  }

  /** Appending is inserting at any index past the last point. */
  lemma AddIsInsertPastEnd(n: Node, cp: ControlPoint, t: int)
    requires t >= |n.points|
    ensures AddControlPoint(n, cp).node == InsertControlPoint(n, cp, t).node
    ensures AddControlPoint(n, cp).index != -1 <==> InsertControlPoint(n, cp, t).success
  {
  }

  /** Removing the point just inserted gives back the original list. */
  lemma InsertThenRemoveRestores(n: Node, cp: ControlPoint, t: int)
    requires InsertControlPoint(n, cp, t).success
    ensures var k := if t < 0 then 0 else if t > |n.points| - 1 then |n.points| else t;
      RemoveNthControlPoint(InsertControlPoint(n, cp, t).node, k).points == n.points
  {
  }

  /** Swapping the same two points twice restores the list. */
  lemma SwapTwiceRestores(n: Node, m1: int, m2: int)
    ensures SwapControlPoints(SwapControlPoints(n, m1, m2), m1, m2).points == n.points
  {
  }

  /** Looking up the ID of a valid index gives that index back, and a
      successful lookup names a point with that ID. */
  lemma IndexByIDRoundTrip(n: Node, i: int, id: string)
    requires Valid(n)
    ensures ControlPointExists(n, i) ==> GetNthControlPointIndexByID(n, GetNthControlPointID(n, i)) == i
    ensures var k := GetNthControlPointIndexByID(n, id);
      k != -1 ==> GetNthControlPointID(n, k) == id
  {
  }

  /** IDs travel with their points when two points are swapped. */
  lemma SwapMovesIDs(n: Node, m1: int, m2: int)
    requires Valid(n)
    requires ControlPointExists(n, m1) && ControlPointExists(n, m2)
    ensures var r := SwapControlPoints(n, m1, m2);
      && GetNthControlPointIndexByID(r, GetNthControlPointID(n, m1)) == m2
      && GetNthControlPointIndexByID(r, GetNthControlPointID(n, m2)) == m1
  {
  }

  /** After a removal the removed point's ID is no longer found, and every
      other point is still found by its ID, one place lower if it followed
      the removed point. */
  lemma RemoveKeepsOtherIDs(n: Node, i: int, j: int)
    requires Valid(n)
    requires ControlPointExists(n, i) && ControlPointExists(n, j)
    ensures var r := RemoveNthControlPoint(n, i);
      GetNthControlPointIndexByID(r, GetNthControlPointID(n, j))
        == if j == i then -1 else if j < i then j else j - 1
  {
    var r := RemoveNthControlPoint(n, i);
    if j < i {
      assert r.points[j] == n.points[j];
    } else if j > i {
      assert r.points[j - 1] == n.points[j];
    }
  }

  /** While the list is locked every point is effectively locked; once it is
      unlocked each point's own flag decides. */
  lemma ListLockOverridesPointLock(n: Node, i: int, locked: int)
    requires ControlPointExists(n, i)
    ensures IsNthControlPointEffectivelyLocked(SetLocked(n, locked), i)
            <==> (locked != 0 || GetNthControlPointLocked(n, i))
  {
  }

  /** Locking then unlocking the list restores every point's effective lock
      state to its own stored flag. */
  lemma LockToggleRestoresPointLocks(n: Node, i: int)
    requires ControlPointExists(n, i)
    ensures IsNthControlPointEffectivelyLocked(SetLocked(SetLocked(n, 1), 0), i)
            <==> GetNthControlPointLocked(n, i)
    ensures SetLocked(SetLocked(n, 1), 0).points == n.points
  {
  }

  /** A point flag changed while the list is locked is kept, unseen, and
      takes effect once the list is unlocked. */
  lemma PointLockKeptUnderListLock(n: Node, i: int, flag: bool)
    requires ControlPointExists(n, i) && IsListLocked(n)
    ensures var m := SetNthControlPointLocked(n, i, flag);
      && IsNthControlPointEffectivelyLocked(m, i)
      && (IsNthControlPointEffectivelyLocked(SetLocked(m, 0), i) <==> flag)
  {
  }

  /** The maximum number of control points does not stop a point from being
      added: a list already at or over its limit still grows. */
  lemma MaximumIsAdvisory(n: Node, cp: ControlPoint)
    requires n.maximumNumberOfControlPoints > 0
    requires |n.points| >= n.maximumNumberOfControlPoints
    requires cp.id == "" || !IDInUse(n.points, cp.id)
    ensures var a := AddControlPoint(n, cp);
      a.index != -1 && GetNumberOfControlPoints(a.node) > a.node.maximumNumberOfControlPoints
  {
  }

  /** A new ID never repeats one generated from a counter value already
      passed. */
  lemma GeneratedIDIsNew(n: Node, k: nat)
    requires k <= n.lastUsedControlPointNumber
    ensures GenerateUniqueControlPointID(n).id != Decimal.NatToString(k)
  {
    Decimal.NatToStringInjective(GenerateUniqueControlPointID(n).counter, k);
  }

  /** After the list is cleared, ID numbering starts again from 1. */
  lemma ClearRestartsNumbering(n: Node)
    ensures GenerateUniqueControlPointID(RemoveAllControlPoints(n)) == GeneratedID("1", 1)
  {
  }

  /** Each `%N` in the label format is replaced by the list name (the empty
      string for a node without a name); a format with a single `%N` becomes
      the text around it with the name in between. */
  lemma ListNameStandsForPlaceholder(n: Node, a: string, b: string)
    requires n.markupLabelFormat == a + "%N" + b
    ensures var name := n.name.GetOr("");
      ReplaceListNameInMarkupLabelFormat(n)
        == LabelFormat.ReplacePlaceholder(a, name) + name + LabelFormat.ReplacePlaceholder(b, name)
    ensures !LabelFormat.ContainsPlaceholder(a) && !LabelFormat.ContainsPlaceholder(b)
            ==> ReplaceListNameInMarkupLabelFormat(n) == a + n.name.GetOr("") + b
  {
    var name := n.name.GetOr("");
    LabelFormat.ReplaceAroundPlaceholder(a, b, name);
    if !LabelFormat.ContainsPlaceholder(a) && !LabelFormat.ContainsPlaceholder(b) {
      LabelFormat.NoPlaceholderUnchanged(a, name);
      LabelFormat.NoPlaceholderUnchanged(b, name);
    }
  }

  /** Setting the label format twice leaves the second format, with one
      event logged per call; a format without `%N` expands to itself. */
  lemma LastLabelFormatWins(n: Node, f1: string, f2: string)
    ensures var r := SetMarkupLabelFormat(SetMarkupLabelFormat(n, f1), f2);
      && r.markupLabelFormat == f2
      && r.(events := n.events) == n.(markupLabelFormat := f2)
      && r.events == n.events + [LabelFormatModifiedEvent, LabelFormatModifiedEvent]
    ensures !LabelFormat.ContainsPlaceholder(f2)
            ==> ReplaceListNameInMarkupLabelFormat(SetMarkupLabelFormat(n, f2)) == f2
  {
  }

  /** The default label format `%N-%d` expands to the list name followed by
      `-%d`. */
  lemma DefaultFormatExpansion(n: Node)
    requires n.markupLabelFormat == DefaultMarkupLabelFormat
    ensures ReplaceListNameInMarkupLabelFormat(n) == n.name.GetOr("") + "-%d"
  {
  }
}

=== FILE: markups_trace.dfy ===
/** The markups node as a state machine: any sequence of the public mutating
    operations keeps the node invariant, never lowers the point-number
    counter unless the list is cleared, and only ever appends to the event
    log. */
module MarkupsTrace {
  import opened ControlPoints
  import opened Markups
  import Decimal

  /** One call of a public mutating operation. */
  datatype Op =
    | Add(cp: ControlPoint)
    | Insert(cp: ControlPoint, targetIndex: int)
    | Remove(index: int)
    | Swap(m1: int, m2: int)
    | RemoveAll
    | Lock(locked: int)
    | SetSelected(index: int, flag: bool)
    | SetPointLocked(index: int, flag: bool)
    | SetVisibility(index: int, flag: bool)
    | SetLabel(index: int, text: string)
    | SetDescription(index: int, text: string)
    | SetAssociatedNodeID(index: int, id: string)
    | SetPosition(index: int, x: real, y: real, z: real)
    | SetOrientation(index: int, m: Orientation)
    | ResetID(index: int)
    | SetLabelFormat(format: string)

  function Apply(n: Node, op: Op): (r: Node)
    ensures Valid(n) ==> Valid(r)
    ensures !op.RemoveAll? ==> r.lastUsedControlPointNumber >= n.lastUsedControlPointNumber
    ensures op.RemoveAll? ==> r.points == [] && r.lastUsedControlPointNumber == 0
    ensures |r.events| >= |n.events| && r.events[..|n.events|] == n.events
  {
    match op
    case Add(cp) => AddControlPoint(n, cp).node
    case Insert(cp, t) => InsertControlPoint(n, cp, t).node
    case Remove(i) => RemoveNthControlPoint(n, i)
    case Swap(m1, m2) => SwapControlPoints(n, m1, m2)
    case RemoveAll => RemoveAllControlPoints(n)
    case Lock(l) => SetLocked(n, l)
    case SetSelected(i, f) => SetNthControlPointSelected(n, i, f)
    case SetPointLocked(i, f) => SetNthControlPointLocked(n, i, f)
    case SetVisibility(i, f) => SetNthControlPointVisibility(n, i, f)
    case SetLabel(i, t) => SetNthControlPointLabel(n, i, t)
    case SetDescription(i, t) => SetNthControlPointDescription(n, i, t)
    case SetAssociatedNodeID(i, id) => SetNthControlPointAssociatedNodeID(n, i, id)
    case SetPosition(i, x, y, z) => SetNthControlPointPosition(n, i, x, y, z)
    case SetOrientation(i, m) => SetNthControlPointOrientationMatrix(n, i, m)
    case ResetID(i) => ResetNthControlPointID(n, i).node
    case SetLabelFormat(f) => SetMarkupLabelFormat(n, f)
  }

  /** The node after applying `ops` in order. */
  function Run(n: Node, ops: seq<Op>): Node
    decreases |ops|
  {
    if |ops| == 0 then n else Run(Apply(n, ops[0]), ops[1..])
  }

  predicate NoClear(ops: seq<Op>) {
    forall i :: 0 <= i < |ops| ==> !ops[i].RemoveAll?
  }

  /** Live IDs stay non-empty and pairwise distinct. */
  lemma {:induction false} RunPreservesValid(n: Node, ops: seq<Op>)
    requires Valid(n)
    ensures Valid(Run(n, ops))
    decreases |ops|
  {
    if |ops| > 0 {
      RunPreservesValid(Apply(n, ops[0]), ops[1..]);
    }
  }

  /** The counter never decreases while the list is not cleared. */
  lemma {:induction false} CounterNeverDecreases(n: Node, ops: seq<Op>)
    requires NoClear(ops)
    ensures Run(n, ops).lastUsedControlPointNumber >= n.lastUsedControlPointNumber
    decreases |ops|
  {
    if |ops| > 0 {
      assert NoClear(ops[1..]) by {
        forall i | 0 <= i < |ops[1..]| ensures !ops[1..][i].RemoveAll? {
          assert ops[1..][i] == ops[i + 1];
        }
      }
      assert !ops[0].RemoveAll?;
      CounterNeverDecreases(Apply(n, ops[0]), ops[1..]);
    }
  }

  /** Events already invoked are never taken back. */
  lemma {:induction false} EventsOnlyAppended(n: Node, ops: seq<Op>)
    ensures |Run(n, ops).events| >= |n.events|
    ensures Run(n, ops).events[..|n.events|] == n.events
    decreases |ops|
  {
    if |ops| > 0 {
      var m := Apply(n, ops[0]);
      EventsOnlyAppended(m, ops[1..]);
      PrefixOfPrefix(Run(m, ops[1..]).events, m.events, n.events);
    }
  }

  lemma PrefixOfPrefix<T>(a: seq<T>, b: seq<T>, c: seq<T>)
    requires |b| <= |a| && a[..|b|] == b
    requires |c| <= |b| && b[..|c|] == c
    ensures a[..|c|] == c
  {
  }

  /** An ID generated from a counter value at or below the current one is
      never generated again until the list is cleared. */
  lemma NoIDReissuedWithoutClear(n: Node, ops: seq<Op>, k: nat)
    requires k <= n.lastUsedControlPointNumber
    requires NoClear(ops)
    ensures GenerateUniqueControlPointID(Run(n, ops)).id != Decimal.NatToString(k)
  {
    CounterNeverDecreases(n, ops);
    var g := GenerateUniqueControlPointID(Run(n, ops));
    Decimal.NatToStringInjective(g.counter, k);
  }

  /** A point added after any sequence of operations without a clear never
      receives the ID of a counter value already passed. */
  lemma AddedIDNotReissued(n: Node, ops: seq<Op>, k: nat)
    requires k <= n.lastUsedControlPointNumber
    requires NoClear(ops)
    ensures var a := AddControlPoint(Run(n, ops), NewControlPoint());
      a.node.points[a.index].id != Decimal.NatToString(k)
  {
    NoIDReissuedWithoutClear(n, ops, k);
  }
}

=== FILE: wrappers.dfy ===
/** Optional values, standing in for the null pointers and absent names of the
    C++ interface. */
module Wrappers {

  /** A value that may be absent. */
  datatype Option<+T> = None | Some(value: T) {

    /** The carried value, or `default` when absent. */
    function GetOr(default: T): T {
      match this
      case Some(v) => v
      case None => default
    }
  }
}
